=== FILE: README.md ===
# WinSocat named-pipe transport, modelled in Dafny

WinSocat relays bytes between two endpoints named by textual addresses such as
`NPIPE:server:pipe` or `NPIPE-LISTEN:pipe,ACL=AllowCurrentUser`. This project
models the named-pipe transport of `winsocat/NamedPipe.cs`:

- the two descriptor parsers, `NamedPipeStreamPiperInfo.TryParse` (connect side)
  and `NamedPipeListenPiperInfo.TryParse` (listen side), over an already
  tokenised `AddressElement` (tag, address, options);
- the `TryParse` wrappers of `NamedPipeStreamPiperFactory`,
  `NamedPipeStreamPiperStrategy` and `NamedPipeListenPiperStrategy`;
- the lifecycle of `NamedPipeListenPiper`: its `_closed` flag, its slot for the
  pending server instance, the access decision taken by `SetPermissions`, both
  accept methods, `Close` and `Dispose`.

Files and modules:

| file | module | contents |
|---|---|---|
| `wrappers.dfy` | `Wrappers` | `Option`, standing for the C# `null` returns |
| `text.dfy` | `Text` | ordinal case-insensitive equality, `LastIndexOf` |
| `address.dfy` | `Address` | the `AddressElement` input record, `GetValueOrDefault` |
| `named_pipe_info.dfy` | `NamedPipeInfo` | both descriptors, their parsers and properties |
| `named_pipe_pipers.dfy` | `NamedPipePipers` | factory and strategy wrappers |
| `named_pipe_listener.dfy` | `NamedPipeListener` | the listener as a state machine |

The listener's mutable fields become an immutable `Listener` record; each method
is a function from one record to a `Transition` (next record plus what the
caller observes: a handed-off connection, an exception, or a plain return).
At most one accept is in flight at a time. `NewIncomingPiperAsync` runs in three
steps: `BeginAcceptAsync` (the closed check and the creation of the instance),
`CompleteWait` (the awaited wait completes) and `ResumeAccept` (the continuation
hands off whatever the slot then holds). A `Close` or `Dispose` can land between
any two of them. An instance that was closed or disposed while waited on makes the
wait fail; the slot then stays as it was, because the exception escapes before
`_serverStream = null` runs. A `Close` or `Dispose` after the wait has completed
does not stop the hand-off (`NamedPipeListener.CloseAfterCompletedWait`). Creating
an instance may fail: the constructor throwing leaves the slot unchanged, and
`SetPermissions` throwing leaves the new, unrestricted instance in the slot.
`Step` and `Run` replay any sequence of steps that keeps one accept in flight.

Behaviour worth noting:

- An `ACL` value is carried verbatim by both parsers, not checked against the
  two known names. Unknown values only make `SetPermissions` a no-op.
- The connect descriptor also carries an `ACL` field, parsed the same way but
  never used.
- Only the async accept refuses a closed listener. The synchronous
  `NewIncomingPiper` never reads `_closed` and still hands off a connection
  after `Close` (`NamedPipeListener.SyncAcceptIgnoresClose`).
- `AllowCurrentUser` does not limit the pipe to the current user. It replaces
  the access list with a single allow rule for `AuthenticatedUserSid`, so every
  authenticated user may connect (winsocat/NamedPipe.cs:153-159). The model
  records only that this narrowing to authenticated users was applied.

## Model

| member | source | states |
|---|---|---|
| `Text.EqualsIgnoreCase` | winsocat/NamedPipe.cs:24 | ordinal ignore-case equality as ASCII upper-case folding: it holds iff the two strings are equal once both are upper-cased, and every string matches itself |
| `Text.EqualsIgnoreCaseIsEquivalence` | winsocat/NamedPipe.cs:24-58 | ignore-case equality, as used for both tags, is reflexive, symmetric and transitive |
| `Address.GetValueOrDefault` | winsocat/NamedPipe.cs:38 | an option lookup yields the stored value when the key is present and the fallback otherwise, so it is always a stored value or the fallback |
| `NamedPipeListener.RestrictsToAuthenticatedUsers` | winsocat/NamedPipe.cs:148-151 | the `SetPermissions` decision: narrow access to authenticated users by an `AuthenticatedUserSid` rule iff on Windows and the ACL upper-cased is `ALLOWCURRENTUSER` |
| `Text.LastIndexOf` | winsocat/NamedPipe.cs:29 | the result is -1 exactly when the character is absent; otherwise it is an occurrence with no later occurrence |
| `NamedPipeInfo.ParseStreamInfo` | winsocat/NamedPipe.cs:22-39 | succeeds iff the tag equals `NPIPE` ignoring case; the pipe name is a colon-free suffix of the address; the server name is non-empty; with no `:` the server is `.` and the pipe is the whole address; otherwise the address is `:pipe` with server `.`, or `server:pipe`; the ACL is the option value or `AllowEveryone` |
| `NamedPipeInfo.ParseListenInfo` | winsocat/NamedPipe.cs:56-62 | succeeds iff the tag equals `NPIPE-LISTEN` ignoring case; the pipe name is the address unchanged; the ACL is the option value or `AllowEveryone` |
| `NamedPipeInfo.ParseComposedAddress` | winsocat/NamedPipe.cs:29-36 | for a non-empty server and a colon-free pipe, parsing `server:pipe` gives exactly that server and pipe (the split is at the last `:`) |
| `NamedPipeInfo.ParseLocalAddress` | winsocat/NamedPipe.cs:29-36 | a colon-free address, bare or behind one leading `:`, parses to server `.` and that pipe name |
| `NamedPipeInfo.StreamInfoReparses` | winsocat/NamedPipe.cs:22-39 | every parsed connect descriptor, written back as `server:pipe` with its ACL option, parses to itself |
| `NamedPipeInfo.ListenInfoRoundTrip` | winsocat/NamedPipe.cs:56-62 | a listen descriptor is recovered from an element holding its pipe name as address and its policy as `ACL` option |
| `NamedPipeInfo.ParsersIgnoreTagCase` | winsocat/NamedPipe.cs:24-58 | replacing the tag by any case variant of it changes neither parser's result |
| `NamedPipeInfo.ParsersAreExclusive` | winsocat/NamedPipe.cs:24-58 | no element is accepted by both the `NPIPE` and the `NPIPE-LISTEN` parser |
| `NamedPipeInfo.AclDefaultAndPassThrough` | winsocat/NamedPipe.cs:38-59 | in both parsers the ACL is `AllowEveryone` when the option is absent and the option value verbatim when present |
| `NamedPipeInfo.ListenParserExamples` | Tests/NamedPipeListenPiperInfoTest.cs:7-60 | the listen parser's unit-test inputs: default and explicit ACLs, lower-case tag accepted, other transports' tags rejected |
| `NamedPipeInfo.StreamParserExample` | winsocat/NamedPipe.cs:29-38 | `NPIPE:fooServer:barPipe` parses to server `fooServer`, pipe `barPipe`, ACL `AllowEveryone` |
| `NamedPipePipers.ParseStreamPiperFactory` | winsocat/NamedPipe.cs:88-96 | yields a factory iff the tag is `NPIPE` ignoring case, iff the connect parser succeeds, and then wraps that parser's descriptor |
| `NamedPipePipers.ParseStreamPiperStrategy` | winsocat/NamedPipe.cs:122-130 | yields a strategy iff the tag is `NPIPE` ignoring case, iff the connect parser succeeds, and then wraps that parser's descriptor |
| `NamedPipePipers.ParseListenPiperStrategy` | winsocat/NamedPipe.cs:243-251 | yields a listen strategy iff the tag is `NPIPE-LISTEN` ignoring case, iff the listen parser succeeds, and then wraps that parser's descriptor |
| `NamedPipePipers.WrappersAreExclusive` | winsocat/NamedPipe.cs:88-251 | an element that yields a listen strategy yields no connect factory and no connect strategy |
| `NamedPipeListener.NewListener` | winsocat/NamedPipe.cs:139-144 | a new listener is not closed, has no pending instance and keeps its descriptor |
| `NamedPipeListener.NewListenPiper` | winsocat/NamedPipe.cs:238-241 | the strategy builds an open, empty, well-formed listener over its own descriptor and the given platform |
| `NamedPipeListener.NewServerInstance` | winsocat/NamedPipe.cs:146-172 | a fresh instance is open, serves the listener's pipe name, and is narrowed to authenticated users by an `AuthenticatedUserSid` rule iff the platform is Windows and the ACL is `AllowCurrentUser` ignoring case |
| `NamedPipeListener.AcceptSync` | winsocat/NamedPipe.cs:164-177 | when creation fails, fails with its error and leaves the slot as creation left it; otherwise hands off the fresh instance iff a client connects, leaving the slot empty, and a failed wait leaves the open instance in the slot; the closed flag is never consulted or changed |
| `NamedPipeListener.BeginAcceptAsync` | winsocat/NamedPipe.cs:179-190 | on a closed listener fails with the closed error and changes nothing; otherwise starts waiting exactly when creation succeeds, with a fresh open instance of the listener's pipe and policy in the slot; a failed creation raises its error and leaves the slot as creation left it |
| `NamedPipeListener.InstallInstance` | winsocat/NamedPipe.cs:146-172 | creation yields the fresh instance exactly when it succeeds or when no narrowing was to be applied; a throwing constructor (and only that) leaves the old slot; a throwing `SetPermissions` fails the accept exactly when the narrowing was to be applied, and leaves an open, unrestricted instance of the pipe in the slot |
| `NamedPipeListener.CompleteWait` | winsocat/NamedPipe.cs:191 | the wait completes successfully iff a client connects while the awaited instance is still in the slot and open; otherwise it fails with the wait error and the slot is untouched |
| `NamedPipeListener.ResumeAccept` | winsocat/NamedPipe.cs:193-195 | the continuation hands off whatever the slot holds when it runs, possibly nothing, and leaves the slot empty |
| `NamedPipeListener.Close` | winsocat/NamedPipe.cs:198-204 | the listener becomes closed; a pending instance stays in the slot, closed |
| `NamedPipeListener.Dispose` | winsocat/NamedPipe.cs:206-225 | the slot is empty afterwards, whatever it held; the closed flag is unchanged |
| `NamedPipeListener.Step` | winsocat/NamedPipe.cs:164-225 | no step reopens a closed listener or changes its descriptor; every step keeps the slot well formed, and every hand-off over an instance is an instance built for the listener |
| `NamedPipeListener.ClosedIsPermanent` | winsocat/NamedPipe.cs:137-204 | after any sequence of calls a closed listener is still closed |
| `NamedPipeListener.HandOffsServeTheListener` | winsocat/NamedPipe.cs:146-196 | over any sequence of steps with one accept in flight, every connection handed off over an instance serves the listener's pipe under the policy its ACL and platform call for |
| `NamedPipeListener.ShutDownListenerAcceptsNothing` | winsocat/NamedPipe.cs:179-204 | a closed listener whose pending instance is closed and with no completed wait hands off nothing under async accepts, `Close` and `Dispose`: every new accept fails with the closed error, every pending wait fails, and the listener stays in that state |
| `NamedPipeListener.CloseCancelsAccepts` | winsocat/NamedPipe.cs:179-204 | a `Close` before any pending wait has completed makes that wait fail and refuses every later async accept with the closed error: nothing is handed off afterwards |
| `NamedPipeListener.CloseAfterCompletedWait` | winsocat/NamedPipe.cs:191-204 | a `Close` after the wait has completed still lets the continuation hand off the now closed instance; after a `Dispose` it hands off a piper over no instance |
| `NamedPipeListener.SyncAcceptIgnoresClose` | winsocat/NamedPipe.cs:164-182 | after `Close` the synchronous accept still hands off a connection while the async one fails with the closed error |
| `NamedPipeListener.PermissionDecision` | winsocat/NamedPipe.cs:146-162 | the narrowing to authenticated users ignores letter case, never applies off Windows, never applies for `AllowEveryone`, and applies for `AllowCurrentUser` on Windows |
| `NamedPipeListener.DefaultAclKeepsDefaultPermissions` | winsocat/NamedPipe.cs:148-151 | a listen address without an `ACL` option gives instances with default permissions on every platform |

## Left out

- `AddressElement.TryParse`, the tokeniser, is not part of this model; its result is taken as an input record. A `null` element, which the C# parsers would dereference, is not modelled.
- `NamedPipeStreamPiperFactory.NewPiper` and `NamedPipeStreamPiperStrategy.NewPiper` only construct a `NamedPipeClientStream` and call `Connect`, a foreign call; they are not modelled.
- Creating a `NamedPipeServerStream`, the security calls in `SetPermissions` and `WaitForConnection(Async)` are foreign calls: an instance is an abstract record, and whether creation and the wait succeed are parameters.
- NamedPipeListener.BeginAcceptAsync: requires that no accept is in flight. The source lets a second accept replace the slot while one is waiting, without disposing the displaced instance, whose wait can then still complete and hand off another instance or none. Overlapping accepts are not modelled; the listener serves one accept at a time.
- NamedPipeListener.AcceptSync: requires that no accept is in flight, for the same reason. It is also one atomic step. In the source, `NewIncomingPiper` blocks its thread in `WaitForConnection`, and a `Close` or `Dispose` from another thread can land after the wait returns but before the slot is read (winsocat/NamedPipe.cs:173-174). The source then hands off the closed instance, or `StreamPiper(null)`; the model always hands off the fresh instance. A `Close` during the wait itself is covered: it gives the same state and events as a failed `AcceptSync` followed by `Close`.
- NamedPipeListener.Step: only steps that keep one accept in flight are replayed, so `Run` and the lemmas over it say nothing about overlapping accepts.
- NamedPipeListener.HandOffsServeTheListener: holds for runs with one accept in flight; with overlapping accepts the source can hand off a displaced instance's wait as a piper over another instance or over none, which is not modelled.
- NamedPipeListener.ShutDownListenerAcceptsNothing: holds for runs with one accept in flight; a displaced instance left open by an overlapping accept could still complete its wait after shutdown, which is not modelled.
- NamedPipeListener.CloseCancelsAccepts: holds when `Close` lands before the pending wait completes and only one accept is in flight; a `Close` after completion still lets the hand-off through, as `NamedPipeListener.CloseAfterCompletedWait` states.
- The Windows security calls in `SetPermissions` (`SecurityIdentifier`, `PipeAccessRule`, `PipeSecurity`, `SetAccessControl`) are reduced to the boolean decision whether the restriction applies and to whether any of them throws; `OperatingSystem.IsWindows()` is a parameter fixed at construction.
- Concurrency is reduced to the three steps of the async accept interleaved with other calls, with the synchronous accept atomic; `GC.SuppressFinalize` and finalisation are runtime plumbing and are left out.
- `Text.EqualsIgnoreCase`: folds ASCII letters only. .NET's ordinal case-insensitive comparison also upper-cases non-ASCII letters, so a tag or ACL value holding a non-ASCII letter whose upper case is an ASCII letter may match in .NET and not in the model. Values made only of ASCII characters compare the same in both.
- The TCP and stdio descriptors, the relay engine and the orchestrator live in files that are not part of this model.

=== FILE: address.dfy ===
/** The already-tokenised address a transport parser receives: a transport
    tag, the primary address text, and the `key=value` options. The tokeniser
    that produces it is not part of this model. */
module Address {

  datatype AddressElement = AddressElement(tag: string, address: string, options: map<string, string>)

  /** `Dictionary.GetValueOrDefault(key, fallback)`. */
  function GetValueOrDefault(options: map<string, string>, key: string, fallback: string): (r: string)
    ensures key in options ==> r == options[key]
    ensures key !in options ==> r == fallback
    ensures r in options.Values || r == fallback
  {
    if key in options then options[key] else fallback
  }
}

=== FILE: named_pipe_info.dfy ===
/** The two named-pipe address descriptors and their parsers
    (`NamedPipeStreamPiperInfo` and `NamedPipeListenPiperInfo`). */
module NamedPipeInfo {
  import opened Wrappers
  import opened Text
  import opened Address

  const ConnectTag: string := "NPIPE"
  const ListenTag: string := "NPIPE-LISTEN"
  const AclKey: string := "ACL"
  const AllowEveryone: string := "AllowEveryone"
  const AllowCurrentUser: string := "AllowCurrentUser"
  /** The server name that stands for the local machine. */
  const LocalServer: string := "."

  /** Where to connect to: a pipe on a (possibly remote) server. */
  datatype StreamInfo = StreamInfo(serverName: string, pipeName: string, acl: string)

  /** Which pipe to serve, and under which access policy. */
  datatype ListenInfo = ListenInfo(pipeName: string, acl: string)

  /** The `ACL` option as both parsers read it
      (`GetValueOrDefault("ACL", "AllowEveryone")`); what that means is
      stated once, by `AclDefaultAndPassThrough`. */
  function AclOf(options: map<string, string>): string
  {
    GetValueOrDefault(options, AclKey, AllowEveryone)
  }

  /** `NamedPipeStreamPiperInfo.TryParse`: accepts the `NPIPE` tag in any
      case and splits the address at its last `:` into server and pipe
      name; with no `:`, or with `:` only in front, the server is the local
      machine. */
  function ParseStreamInfo(e: AddressElement): (r: Option<StreamInfo>)
    ensures r.Some? <==> EqualsIgnoreCase(e.tag, ConnectTag)
    ensures r.Some? ==> r.value.acl == AclOf(e.options)
    ensures r.Some? ==> ':' !in r.value.pipeName && r.value.serverName != []
    ensures r.Some? ==> (|r.value.pipeName| <= |e.address|
                         && e.address[|e.address| - |r.value.pipeName|..] == r.value.pipeName)
    ensures r.Some? && ':' !in e.address ==>
              r.value.serverName == LocalServer && r.value.pipeName == e.address
    ensures r.Some? && ':' in e.address ==>
              || (r.value.serverName == LocalServer && e.address == ":" + r.value.pipeName)
              || e.address == r.value.serverName + ":" + r.value.pipeName
  {
    if !EqualsIgnoreCase(e.tag, ConnectTag) then None
    else
      var sep := LastIndexOf(e.address, ':');
      var serverName := if sep == 0 || sep == -1 then LocalServer else e.address[..sep];
      var pipeName := e.address[sep + 1..];
      assert ':' !in pipeName by {
        forall i | 0 <= i < |pipeName| ensures pipeName[i] != ':' {
          assert pipeName[i] == e.address[sep + 1 + i];
        }
      }
      assert 0 < sep ==> e.address == serverName + ":" + pipeName;
      Some(StreamInfo(serverName, pipeName, AclOf(e.options)))
  }

  /** `NamedPipeListenPiperInfo.TryParse`: accepts the `NPIPE-LISTEN` tag in
      any case and keeps the address verbatim as the pipe name. */
  function ParseListenInfo(e: AddressElement): (r: Option<ListenInfo>)
    ensures r.Some? <==> EqualsIgnoreCase(e.tag, ListenTag)
    ensures r.Some? ==> r.value.pipeName == e.address
    ensures r.Some? ==> r.value.acl == AclOf(e.options)
  {
    if EqualsIgnoreCase(e.tag, ListenTag) then Some(ListenInfo(e.address, AclOf(e.options))) else None
  }

  /** Composing a server name and a colon-free pipe name and parsing the
      result gives them back: the last `:` is the one that was inserted. */
  lemma ParseComposedAddress(tag: string, server: string, pipe: string, options: map<string, string>)
    requires EqualsIgnoreCase(tag, ConnectTag)
    requires server != [] && ':' !in pipe
    ensures ParseStreamInfo(AddressElement(tag, server + ":" + pipe, options))
         == Some(StreamInfo(server, pipe, AclOf(options)))
  {
    var address := server + ":" + pipe;
    forall j | |server| < j < |address| ensures address[j] != ':' {
      assert address[j] == pipe[j - |server| - 1];
    }
    LastIndexOfIsUnique(address, ':', |server|);
    assert address[..|server|] == server;
    assert address[|server| + 1..] == pipe;
  }

  /** A colon-free address, bare or behind a single leading `:`, names a
      pipe on the local machine. */
  lemma ParseLocalAddress(tag: string, pipe: string, options: map<string, string>)
    requires EqualsIgnoreCase(tag, ConnectTag)
    requires ':' !in pipe
    ensures ParseStreamInfo(AddressElement(tag, pipe, options))
         == Some(StreamInfo(LocalServer, pipe, AclOf(options)))
    ensures ParseStreamInfo(AddressElement(tag, ":" + pipe, options))
         == Some(StreamInfo(LocalServer, pipe, AclOf(options)))
  {
  }

  /** Whatever the connect parser produces can be written back as
      `server:pipe` and parsed again to the same descriptor. */
  lemma StreamInfoReparses(e: AddressElement)
    requires ParseStreamInfo(e).Some?
    ensures var i := ParseStreamInfo(e).value;
            ParseStreamInfo(AddressElement(ConnectTag, i.serverName + ":" + i.pipeName, map[AclKey := i.acl])) == Some(i)
  {
    var i := ParseStreamInfo(e).value;
    EqualsIgnoreCaseIsEquivalence(ConnectTag, ConnectTag, ConnectTag);
    ParseComposedAddress(ConnectTag, i.serverName, i.pipeName, map[AclKey := i.acl]);
  }

  /** A listen descriptor is recovered from an element that carries its pipe
      name as the address and its policy as the `ACL` option. */
  lemma ListenInfoRoundTrip(tag: string, i: ListenInfo)
    requires EqualsIgnoreCase(tag, ListenTag)
    ensures ParseListenInfo(AddressElement(tag, i.pipeName, map[AclKey := i.acl])) == Some(i)
  {
  }

  /** Both parsers look at the tag only through case-insensitive equality:
      two spellings of one tag parse every element alike. */
  lemma ParsersIgnoreTagCase(e: AddressElement, tag: string)
    requires EqualsIgnoreCase(e.tag, tag)
    ensures ParseStreamInfo(e.(tag := tag)) == ParseStreamInfo(e)
    ensures ParseListenInfo(e.(tag := tag)) == ParseListenInfo(e)
  {
  }

  /** No element is claimed by both parsers: `NPIPE` and `NPIPE-LISTEN` do
      not match each other under case folding. */
  lemma ParsersAreExclusive(e: AddressElement)
    ensures !(ParseStreamInfo(e).Some? && ParseListenInfo(e).Some?)
  {
  }

  /** In both parsers the default policy applies exactly when the `ACL`
      option is absent, and a present value is carried verbatim, recognised
      or not. */
  lemma AclDefaultAndPassThrough(e: AddressElement)
    ensures ParseListenInfo(e).Some? && AclKey !in e.options ==> ParseListenInfo(e).value.acl == AllowEveryone
    ensures ParseStreamInfo(e).Some? && AclKey !in e.options ==> ParseStreamInfo(e).value.acl == AllowEveryone
    ensures ParseListenInfo(e).Some? && AclKey in e.options ==> ParseListenInfo(e).value.acl == e.options[AclKey]
    ensures ParseStreamInfo(e).Some? && AclKey in e.options ==> ParseStreamInfo(e).value.acl == e.options[AclKey]
  {
  }

  /** The listen parser on the elements its unit tests build: the default
      and explicit policies, a lower-case tag, and tags of other transports.
      Each element is the tag, address and options of the test's input
      string. */
  lemma ListenParserExamples()
    ensures ParseListenInfo(AddressElement("NPIPE-LISTEN", "fooPipe", map[]))
         == Some(ListenInfo("fooPipe", AllowEveryone))
    ensures ParseListenInfo(AddressElement("npipe-listen", "fooPipe", map[]))
         == Some(ListenInfo("fooPipe", AllowEveryone))
    ensures ParseListenInfo(AddressElement("NPIPE-LISTEN", "fooPipe", map["ACL" := "AllowEveryone"]))
         == Some(ListenInfo("fooPipe", AllowEveryone))
    ensures ParseListenInfo(AddressElement("NPIPE-LISTEN", "fooPipe", map["ACL" := "AllowCurrentUser"]))
         == Some(ListenInfo("fooPipe", AllowCurrentUser))
    ensures ParseListenInfo(AddressElement("STDIO", "", map[])).None?
    ensures ParseListenInfo(AddressElement("TCP", "127.0.0.1:80", map[])).None?
    ensures ParseListenInfo(AddressElement("TCP-LISTEN", "127.0.0.1:80", map[])).None?
    ensures ParseListenInfo(AddressElement("EXEC", "'C:\\Foo.exe bar'", map[])).None?
    ensures ParseListenInfo(AddressElement("NPIPE", "fooServer:barPipe", map[])).None?
  {
    EqualsIgnoreCaseIsEquivalence(ListenTag, ListenTag, ListenTag);
    var lower := "npipe-listen";
    assert EqualsIgnoreCase(lower, ListenTag) by {
      forall i | 0 <= i < |lower| ensures UpperAscii(lower[i]) == UpperAscii(ListenTag[i]) {
        assert i in {0, 1, 2, 3, 4, 5, 6, 7, 8, 9, 10, 11};
      }
    }
  }

  /** The connect address the listen parser's tests reject splits into its
      server and pipe names. */
  lemma StreamParserExample()
    ensures ParseStreamInfo(AddressElement("NPIPE", "fooServer:barPipe", map[]))
         == Some(StreamInfo("fooServer", "barPipe", AllowEveryone))
  {
    EqualsIgnoreCaseIsEquivalence(ConnectTag, ConnectTag, ConnectTag);
    assert "fooServer" + ":" + "barPipe" == "fooServer:barPipe";
    ParseComposedAddress(ConnectTag, "fooServer", "barPipe", map[]);
  }
}

=== FILE: named_pipe_listener.dfy ===
/** `NamedPipeListenPiper`: the listener of a named-pipe listen strategy.
    Its mutable fields (`_serverStream`, `_closed`) become an immutable
    `Listener` record and every method becomes a transition to the next
    record. The OS pipe instance is abstracted to the facts the listener
    decides: which pipe it serves, whether its access was narrowed to
    authenticated users, and whether it has been closed. Creating an instance and
    waiting for a client are foreign calls whose outcomes are parameters.

    At most one accept is in flight at a time. The async accept runs in
    three steps so that `Close` and `Dispose` can land between them: it
    begins (closed check, new instance in the slot), its wait completes, and
    its continuation resumes and hands off whatever the slot then holds. */
module NamedPipeListener {
  import opened Wrappers
  import opened Text
  import opened Address
  import opened NamedPipeInfo
  import opened NamedPipePipers

  /** The decision `SetPermissions` takes: the pipe's access list is replaced
      by a single allow rule for `AuthenticatedUserSid`, which admits every
      authenticated user (not only the current one), on Windows only, and
      only when the policy is `AllowCurrentUser` in some letter case. Any
      other value, recognised or not, leaves the default permissions. */
  predicate RestrictsToAuthenticatedUsers(onWindows: bool, acl: string)
    ensures RestrictsToAuthenticatedUsers(onWindows, acl) <==>
              onWindows && UpperAsciiString(acl) == "ALLOWCURRENTUSER"
  {
    onWindows && EqualsIgnoreCase(acl, AllowCurrentUser)
  }

  datatype InstanceState = Open | Closed

  /** A server-side pipe instance (`NamedPipeServerStream`);
      `authenticatedUsersOnly` records whether the `AuthenticatedUserSid`
      rule was applied to it. */
  datatype ServerInstance = ServerInstance(pipeName: string, authenticatedUsersOnly: bool, state: InstanceState)

  /** The connection handed to the relay: `StreamPiper` over the slot's
      instance, which is `None` when the slot was emptied under the accept. */
  datatype Piper = StreamPiper(stream: Option<ServerInstance>)

  /** Where the one accept in flight stands: none, an async accept waiting
      for a client, or a completed wait whose continuation has not run. */
  datatype AcceptPhase = Idle | Waiting | Completed

  /** `info` and the host platform are fixed at construction; `serverStream`
      is the pending-instance slot and `closed` the `_closed` flag. */
  datatype Listener = Listener(
    info: ListenInfo, onWindows: bool, serverStream: Option<ServerInstance>, closed: bool, phase: AcceptPhase)

  /** The outcome of creating an instance: the constructor may throw, and so
      may `SetPermissions` when it builds and applies the restricting access
      rule. */
  datatype CreateOutcome = Created | ConstructorFailed | SetPermissionsFailed

  /** The outcome of the `WaitForConnection` call. */
  datatype WaitOutcome = ClientConnected | WaitAborted

  /** `ListenerClosed` is the `ObjectDisposedException` the async accept
      throws up front; the others are exceptions out of the foreign calls. */
  datatype AcceptError = ListenerClosed | CreateFailed | PermissionFailed | WaitFailed

  /** What a caller observes from one operation: a connection handed off,
      an exception, or a plain return. */
  datatype Event = HandedOff(piper: Piper) | Failed(error: AcceptError) | Done

  datatype Transition = Transition(next: Listener, event: Event)

  /** An instance built for this listener: created for its pipe name, with
      the access policy its ACL and platform call for. */
  predicate Serves(l: Listener, i: ServerInstance)
  {
    && i.pipeName == l.info.pipeName
    && (i.authenticatedUsersOnly <==> RestrictsToAuthenticatedUsers(l.onWindows, l.info.acl))
  }

  /** Every instance the listener holds is of its own pipe and is narrowed
      to authenticated users only when the policy asks for it. The instance an
      accept in flight waits on has exactly the policy's permissions; only an
      instance whose `SetPermissions` threw keeps the default ones where a
      restriction was asked for. */
  predicate WellFormed(l: Listener)
  {
    && (l.serverStream.Some? ==> l.serverStream.value.pipeName == l.info.pipeName)
    && (l.serverStream.Some? && l.serverStream.value.authenticatedUsersOnly ==>
          RestrictsToAuthenticatedUsers(l.onWindows, l.info.acl))
    && (l.serverStream.Some? && !l.phase.Idle? ==> Serves(l, l.serverStream.value))
  }

  /** The constructor: open, with no pending instance and no accept. */
  function NewListener(info: ListenInfo, onWindows: bool): (l: Listener)
    ensures l.info == info && l.onWindows == onWindows
    ensures !l.closed && l.serverStream.None? && l.phase == Idle
    ensures WellFormed(l)
  {
    Listener(info, onWindows, None, false, Idle)
  }

  /** `NamedPipeListenPiperStrategy.NewListenPiper`. */
  function NewListenPiper(s: ListenPiperStrategy, onWindows: bool): (l: Listener)
    ensures l.info == s.info && l.onWindows == onWindows
    ensures !l.closed && l.serverStream.None? && l.phase == Idle
    ensures WellFormed(l)
  {
    NewListener(s.info, onWindows)
  }

  /** A fresh server instance with `SetPermissions` applied to it. */
  function NewServerInstance(l: Listener): (i: ServerInstance)
    ensures Serves(l, i) && i.state == Open
  {
    ServerInstance(l.info.pipeName, RestrictsToAuthenticatedUsers(l.onWindows, l.info.acl), Open)
  }

  /** The slot after creating an instance and applying `SetPermissions`, and
      the exception raised on the way, if any. A throwing constructor leaves
      the slot as it was; a throwing `SetPermissions` (which can only
      throw when the restriction applies) leaves the new, unrestricted instance there. */
  datatype Installed = Installed(slot: Option<ServerInstance>, error: Option<AcceptError>)

  function InstallInstance(l: Listener, creation: CreateOutcome): (r: Installed)
    ensures r.error.None? ==> r.slot == Some(NewServerInstance(l))
    ensures r.error.None? <==> (creation == Created ||
                               (creation == SetPermissionsFailed && !RestrictsToAuthenticatedUsers(l.onWindows, l.info.acl)))
    ensures r.error == Some(CreateFailed) <==> creation == ConstructorFailed
    ensures r.error == Some(CreateFailed) ==> r.slot == l.serverStream
    ensures r.error == Some(PermissionFailed) <==>
              creation == SetPermissionsFailed && RestrictsToAuthenticatedUsers(l.onWindows, l.info.acl)
    ensures r.error == Some(PermissionFailed) ==>
              r.slot == Some(ServerInstance(l.info.pipeName, false, Open))
  {
    match creation
    case ConstructorFailed => Installed(l.serverStream, Some(CreateFailed))
    case SetPermissionsFailed =>
      if RestrictsToAuthenticatedUsers(l.onWindows, l.info.acl)
      then Installed(Some(ServerInstance(l.info.pipeName, false, Open)), Some(PermissionFailed))
      else Installed(Some(NewServerInstance(l)), None)
    case Created => Installed(Some(NewServerInstance(l)), None)
  }

  /** `NewIncomingPiper`: creates an instance, waits, and hands it off. It
      does not look at `closed`. A failing wait leaves the instance in the
      slot, since the exception escapes before the slot is cleared. */
  function AcceptSync(l: Listener, creation: CreateOutcome, outcome: WaitOutcome): (t: Transition)
    requires l.phase == Idle
    ensures t.next.info == l.info && t.next.onWindows == l.onWindows
    ensures t.next.closed == l.closed && t.next.phase == Idle
    ensures t.event.HandedOff? <==> InstallInstance(l, creation).error.None? && outcome == ClientConnected
    ensures t.event.HandedOff? ==> t.next.serverStream.None?
                                   && t.event.piper.stream == Some(NewServerInstance(l))
    ensures InstallInstance(l, creation).error.Some? ==>
              t == Transition(l.(serverStream := InstallInstance(l, creation).slot),
                              Failed(InstallInstance(l, creation).error.value))
    ensures InstallInstance(l, creation).error.None? && outcome == WaitAborted ==>
              t == Transition(l.(serverStream := Some(NewServerInstance(l))), Failed(WaitFailed))
  {
    var installed := InstallInstance(l, creation);
    if installed.error.Some? then
      Transition(l.(serverStream := installed.slot), Failed(installed.error.value))
    else match outcome
      case ClientConnected => Transition(l.(serverStream := None), HandedOff(StreamPiper(installed.slot)))
      case WaitAborted => Transition(l.(serverStream := installed.slot), Failed(WaitFailed))
  }

  /** `NewIncomingPiperAsync` up to its `await`: refuses a closed listener,
      otherwise installs a fresh instance in the slot and starts waiting. */
  function BeginAcceptAsync(l: Listener, creation: CreateOutcome): (t: Transition)
    requires l.phase == Idle
    ensures l.closed ==> t == Transition(l, Failed(ListenerClosed))
    ensures t.next.info == l.info && t.next.onWindows == l.onWindows && t.next.closed == l.closed
    ensures t.next.phase == Waiting <==> !l.closed && InstallInstance(l, creation).error.None?
    ensures t.next.phase == Waiting ==> t.event == Done && t.next.serverStream == Some(NewServerInstance(l))
    ensures !l.closed && InstallInstance(l, creation).error.Some? ==>
              t == Transition(l.(serverStream := InstallInstance(l, creation).slot),
                              Failed(InstallInstance(l, creation).error.value))
  {
    if l.closed then Transition(l, Failed(ListenerClosed))
    else
      var installed := InstallInstance(l, creation);
      if installed.error.Some? then
        Transition(l.(serverStream := installed.slot), Failed(installed.error.value))
      else
        Transition(l.(serverStream := installed.slot, phase := Waiting), Done)
  }

  /** The awaited `WaitForConnectionAsync` completes. With one accept in
      flight, only `Close` (which closes the instance in place) and `Dispose`
      (which empties the slot) can have touched the awaited instance, so it
      is the slot's instance when that is present. The wait succeeds only
      when a client connects to an instance that is still open; otherwise it
      throws and the slot is left as it was. */
  function CompleteWait(l: Listener, outcome: WaitOutcome): (t: Transition)
    requires l.phase == Waiting
    ensures t.next.phase == Completed <==>
              outcome == ClientConnected && l.serverStream.Some? && l.serverStream.value.state == Open
    ensures t.next.phase == Completed ==> t == Transition(l.(phase := Completed), Done)
    ensures t.next.phase != Completed ==> t == Transition(l.(phase := Idle), Failed(WaitFailed))
  {
    if outcome == ClientConnected && l.serverStream.Some? && l.serverStream.value.state == Open
    then Transition(l.(phase := Completed), Done)
    else Transition(l.(phase := Idle), Failed(WaitFailed))
  }

  /** The continuation after the `await`: hands off whatever the slot holds
      at that moment, and empties it. */
  function ResumeAccept(l: Listener): (t: Transition)
    requires l.phase == Completed
    ensures t.next == l.(serverStream := None, phase := Idle)
    ensures t.event == HandedOff(StreamPiper(l.serverStream))
  {
    Transition(l.(serverStream := None, phase := Idle), HandedOff(StreamPiper(l.serverStream)))
  }

  /** `Close`: marks the listener closed and closes a pending instance,
      which stays in the slot. */
  function Close(l: Listener): (r: Listener)
    ensures r.closed
    ensures r.info == l.info && r.onWindows == l.onWindows && r.phase == l.phase
    ensures r.serverStream.Some? <==> l.serverStream.Some?
    ensures r.serverStream.Some? ==> r.serverStream.value == l.serverStream.value.(state := Closed)
  {
    match l.serverStream
    case Some(instance) => l.(closed := true, serverStream := Some(instance.(state := Closed)))
    case None => l.(closed := true)
  }

  /** `Dispose`: releases any pending instance and empties the slot, open
      or closed alike. */
  function Dispose(l: Listener): (r: Listener)
    ensures r.serverStream.None?
    ensures r.info == l.info && r.onWindows == l.onWindows && r.closed == l.closed && r.phase == l.phase
  {
    l.(serverStream := None)
  }

  /** One call on the listener, or one step of the async accept in flight. */
  datatype Op =
    | AcceptSyncOp(creation: CreateOutcome, outcome: WaitOutcome)
    | BeginAcceptAsyncOp(creation: CreateOutcome)
    | CompleteWaitOp(outcome: WaitOutcome)
    | ResumeAcceptOp
    | CloseOp
    | DisposeOp

  /** The steps possible in a phase: a new accept only when none is in
      flight, and the steps of the async accept in their order. */
  predicate Allowed(l: Listener, op: Op)
  {
    match op
    case AcceptSyncOp(_, _) => l.phase == Idle
    case BeginAcceptAsyncOp(_) => l.phase == Idle
    case CompleteWaitOp(_) => l.phase == Waiting
    case ResumeAcceptOp => l.phase == Completed
    case CloseOp => true
    case DisposeOp => true
  }

  function Step(l: Listener, op: Op): (t: Transition)
    requires Allowed(l, op)
    ensures t.next.info == l.info && t.next.onWindows == l.onWindows
    ensures l.closed ==> t.next.closed
    ensures WellFormed(l) ==> WellFormed(t.next)
    ensures WellFormed(l) && t.event.HandedOff? && t.event.piper.stream.Some? ==>
              Serves(l, t.event.piper.stream.value)
  {
    match op
    case AcceptSyncOp(creation, outcome) => AcceptSync(l, creation, outcome)
    case BeginAcceptAsyncOp(creation) => BeginAcceptAsync(l, creation)
    case CompleteWaitOp(outcome) => CompleteWait(l, outcome)
    case ResumeAcceptOp => ResumeAccept(l)
    case CloseOp => Transition(Close(l), Done)
    case DisposeOp => Transition(Dispose(l), Done)
  }

  /** A sequence of steps each of which is possible where it is taken. */
  predicate Serial(l: Listener, ops: seq<Op>)
    decreases |ops|
  {
    ops == [] || (Allowed(l, ops[0]) && Serial(Step(l, ops[0]).next, ops[1..]))
  }

  /** The final state of a sequence of steps and what each step produced. */
  datatype Execution = Execution(last: Listener, events: seq<Event>)

  function Run(l: Listener, ops: seq<Op>): (x: Execution)
    requires Serial(l, ops)
    ensures |x.events| == |ops|
    decreases |ops|
  {
    if ops == [] then Execution(l, [])
    else
      var t := Step(l, ops[0]);
      var rest := Run(t.next, ops[1..]);
      Execution(rest.last, [t.event] + rest.events)
  }

  /** `_closed` is never reset: once closed, a listener stays closed
      whatever is called on it. */
  lemma {:induction false} ClosedIsPermanent(l: Listener, ops: seq<Op>)
    requires l.closed && Serial(l, ops)
    ensures Run(l, ops).last.closed
    decreases |ops|
  {
    if ops != [] {
      ClosedIsPermanent(Step(l, ops[0]).next, ops[1..]);
    }
  }

  /** Over any sequence of steps, every connection handed off over an
      instance is an instance of the listener's own pipe under the access
      policy its ACL and platform call for. */
  lemma {:induction false} HandOffsServeTheListener(l: Listener, ops: seq<Op>)
    requires WellFormed(l) && Serial(l, ops)
    ensures WellFormed(Run(l, ops).last)
    ensures forall i :: 0 <= i < |ops| && Run(l, ops).events[i].HandedOff? &&
                        Run(l, ops).events[i].piper.stream.Some? ==>
              Serves(l, Run(l, ops).events[i].piper.stream.value)
    decreases |ops|
  {
    if ops != [] {
      var t := Step(l, ops[0]);
      HandOffsServeTheListener(t.next, ops[1..]);
      var x := Run(l, ops);
      forall i | 0 <= i < |ops| && x.events[i].HandedOff? && x.events[i].piper.stream.Some?
        ensures Serves(l, x.events[i].piper.stream.value)
      {
        if i > 0 {
          assert x.events[i] == Run(t.next, ops[1..]).events[i - 1];
        }
      }
    }
  }

  /** A closed listener whose pending instance, if any, is closed too, and
      with no completed wait still to resume. */
  predicate ShutDown(l: Listener)
  {
    && l.closed
    && (l.serverStream.Some? ==> l.serverStream.value.state == Closed)
    && !l.phase.Completed?
  }

  /** Only the synchronous accept skips the `closed` check. */
  predicate AsyncOnly(ops: seq<Op>)
  {
    forall i :: 0 <= i < |ops| ==> !ops[i].AcceptSyncOp?
  }

  /** Once shut down, a listener driven only through the async accept,
      `Close` and `Dispose` never hands off another connection: every new
      accept is refused with the closed error and every pending wait
      completes with a failure rather than a connection. */
  lemma {:induction false} ShutDownListenerAcceptsNothing(l: Listener, ops: seq<Op>)
    requires ShutDown(l) && AsyncOnly(ops) && Serial(l, ops)
    ensures ShutDown(Run(l, ops).last)
    ensures forall i :: 0 <= i < |ops| ==> !Run(l, ops).events[i].HandedOff?
    ensures forall i :: 0 <= i < |ops| && ops[i].BeginAcceptAsyncOp? ==>
              Run(l, ops).events[i] == Failed(ListenerClosed)
    ensures forall i :: 0 <= i < |ops| && ops[i].CompleteWaitOp? ==>
              Run(l, ops).events[i] == Failed(WaitFailed)
    decreases |ops|
  {
    if ops != [] {
      var t := Step(l, ops[0]);
      assert ShutDown(t.next) && !t.event.HandedOff?;
      assert AsyncOnly(ops[1..]) by {
        forall i | 0 <= i < |ops[1..]| ensures !ops[1..][i].AcceptSyncOp? {
          assert ops[1..][i] == ops[i + 1];
        }
      }
      ShutDownListenerAcceptsNothing(t.next, ops[1..]);
      var x := Run(l, ops);
      forall i | 0 <= i < |ops|
        ensures !x.events[i].HandedOff?
        ensures ops[i].BeginAcceptAsyncOp? ==> x.events[i] == Failed(ListenerClosed)
        ensures ops[i].CompleteWaitOp? ==> x.events[i] == Failed(WaitFailed)
      {
        if i > 0 {
          assert x.events[i] == Run(t.next, ops[1..]).events[i - 1];
          assert ops[i] == ops[1..][i - 1];
        }
      }
    }
  }

  /** `Close` cancels accepting when no wait has completed yet: an async
      accept still waiting completes with a failure, every later async
      accept is refused with the closed error, and nothing is handed off. */
  lemma CloseCancelsAccepts(l: Listener, ops: seq<Op>)
    requires !l.phase.Completed?
    requires AsyncOnly(ops) && Serial(Close(l), ops)
    ensures forall i :: 0 <= i < |ops| ==> !Run(Close(l), ops).events[i].HandedOff?
    ensures forall i :: 0 <= i < |ops| && ops[i].BeginAcceptAsyncOp? ==>
              Run(Close(l), ops).events[i] == Failed(ListenerClosed)
    ensures forall i :: 0 <= i < |ops| && ops[i].CompleteWaitOp? ==>
              Run(Close(l), ops).events[i] == Failed(WaitFailed)
  {
    ShutDownListenerAcceptsNothing(Close(l), ops);
  }

  /** A `Close` or `Dispose` that lands after the wait has completed does not
      stop the hand-off: the continuation passes on the closed instance, or,
      after `Dispose`, a piper over no instance at all. */
  lemma CloseAfterCompletedWait(l: Listener)
    requires l.phase == Completed && l.serverStream.Some?
    ensures ResumeAccept(Close(l)).event
         == HandedOff(StreamPiper(Some(l.serverStream.value.(state := Closed))))
    ensures ResumeAccept(Dispose(l)).event == HandedOff(StreamPiper(None))
    ensures ResumeAccept(Close(l)).next.closed
  {
  }

  /** The synchronous accept, unlike the async one, still hands off a
      connection after `Close`. */
  lemma SyncAcceptIgnoresClose(l: Listener)
    requires l.phase == Idle
    ensures AcceptSync(Close(l), Created, ClientConnected).event.HandedOff?
    ensures BeginAcceptAsync(Close(l), Created).event == Failed(ListenerClosed)
  {
  }

  /** The ACL decision ignores letter case, never applies off Windows, and
      never applies for the default policy. */
  lemma PermissionDecision(onWindows: bool, acl: string, acl': string)
    ensures EqualsIgnoreCase(acl, acl') ==>
              (RestrictsToAuthenticatedUsers(onWindows, acl) <==> RestrictsToAuthenticatedUsers(onWindows, acl'))
    ensures !RestrictsToAuthenticatedUsers(false, acl)
    ensures !RestrictsToAuthenticatedUsers(onWindows, AllowEveryone)
    ensures RestrictsToAuthenticatedUsers(true, AllowCurrentUser)
  {
  }

  /** A listen address without an `ACL` option yields a listener whose
      instances keep the default permissions on every platform. */
  lemma DefaultAclKeepsDefaultPermissions(e: AddressElement, onWindows: bool)
    requires ParseListenPiperStrategy(e).Some?
    requires AclKey !in e.options
    ensures !NewServerInstance(NewListenPiper(ParseListenPiperStrategy(e).value, onWindows)).authenticatedUsersOnly
  {
  }
}

=== FILE: named_pipe_pipers.dfy ===
/** The factory and strategies built from named-pipe descriptors. Their
    `TryParse` only wraps the descriptor parser; opening the OS pipe
    (`NewPiper`) is a foreign call and is not modelled. */
module NamedPipePipers {
  import opened Wrappers
  import opened Text
  import opened Address
  import opened NamedPipeInfo

  /** `NamedPipeStreamPiperFactory`: connects once per request. */
  datatype StreamPiperFactory = StreamPiperFactory(info: StreamInfo)

  /** `NamedPipeStreamPiperStrategy`: the connect side of a relay. */
  datatype StreamPiperStrategy = StreamPiperStrategy(info: StreamInfo)

  /** `NamedPipeListenPiperStrategy`: the listening side of a relay. */
  datatype ListenPiperStrategy = ListenPiperStrategy(info: ListenInfo)

  function ParseStreamPiperFactory(e: AddressElement): (r: Option<StreamPiperFactory>)
    ensures r.Some? <==> EqualsIgnoreCase(e.tag, ConnectTag)
    ensures r.Some? <==> ParseStreamInfo(e).Some?
    ensures r.Some? ==> ParseStreamInfo(e) == Some(r.value.info)
  {
    match ParseStreamInfo(e)
    case Some(info) => Some(StreamPiperFactory(info))
    case None => None
  }

  function ParseStreamPiperStrategy(e: AddressElement): (r: Option<StreamPiperStrategy>)
    ensures r.Some? <==> EqualsIgnoreCase(e.tag, ConnectTag)
    ensures r.Some? <==> ParseStreamInfo(e).Some?
    ensures r.Some? ==> ParseStreamInfo(e) == Some(r.value.info)
  {
    match ParseStreamInfo(e)
    case Some(info) => Some(StreamPiperStrategy(info))
    case None => None
  }

  function ParseListenPiperStrategy(e: AddressElement): (r: Option<ListenPiperStrategy>)
    ensures r.Some? <==> EqualsIgnoreCase(e.tag, ListenTag)
    ensures r.Some? <==> ParseListenInfo(e).Some?
    ensures r.Some? ==> ParseListenInfo(e) == Some(r.value.info)
  {
    match ParseListenInfo(e)
    case Some(info) => Some(ListenPiperStrategy(info))
    case None => None
  }

  /** A connect address never yields a listen strategy and a listen address
      never yields a connect factory or strategy. */
  lemma WrappersAreExclusive(e: AddressElement)
    ensures ParseListenPiperStrategy(e).Some? ==> ParseStreamPiperFactory(e).None?
    ensures ParseListenPiperStrategy(e).Some? ==> ParseStreamPiperStrategy(e).None?
  {
  }
}

=== FILE: text.dfy ===
/** The two string primitives the named-pipe parsers rely on: ordinal
    case-insensitive equality and `LastIndexOf` on a character. */
module Text {

  /** Upper-cases an ASCII lower-case letter; every other character maps to
      itself. This is the folding an ordinal case-insensitive comparison
      applies to ASCII text. */
  function UpperAscii(c: char): char
  {
    if 'a' <= c <= 'z' then (c as int - 32) as char else c
  }

  /** The string with every ASCII letter upper-cased. */
  function UpperAsciiString(s: string): (u: string)
    ensures |u| == |s|
    ensures forall i :: 0 <= i < |s| ==> u[i] == UpperAscii(s[i])
  {
    seq(|s|, i requires 0 <= i < |s| => UpperAscii(s[i]))
  }

  /** `a.Equals(b, StringComparison.OrdinalIgnoreCase)` on ASCII text: the two
      strings agree once both are upper-cased. */
  predicate EqualsIgnoreCase(a: string, b: string)
    ensures EqualsIgnoreCase(a, b) <==> UpperAsciiString(a) == UpperAsciiString(b)
    ensures a == b ==> EqualsIgnoreCase(a, b)
  {
    && |a| == |b|
    && forall i :: 0 <= i < |a| ==> UpperAscii(a[i]) == UpperAscii(b[i])
  }

  /** Case-insensitive equality is an equivalence relation, so comparing a tag
      against a literal gives the same answer for every spelling of that tag. */
  lemma EqualsIgnoreCaseIsEquivalence(a: string, b: string, c: string)
    ensures EqualsIgnoreCase(a, a)
    ensures EqualsIgnoreCase(a, b) ==> EqualsIgnoreCase(b, a)
    ensures EqualsIgnoreCase(a, b) && EqualsIgnoreCase(b, c) ==> EqualsIgnoreCase(a, c)
  {
  }

  /** `s.LastIndexOf(c)`: the index of the last occurrence of `c` in `s`, or
      -1 when `c` does not occur at all. */
  function LastIndexOf(s: string, c: char): (r: int)
    ensures -1 <= r < |s|
    ensures r == -1 <==> c !in s
    ensures 0 <= r ==> s[r] == c
    ensures forall j :: r < j < |s| ==> s[j] != c
    decreases |s|
  {
    if |s| == 0 then -1
    else if s[|s| - 1] == c then |s| - 1
    else LastIndexOf(s[..|s| - 1], c)
  }

  /** An occurrence of `c` with no `c` after it is the one `LastIndexOf`
      finds. */
  lemma LastIndexOfIsUnique(s: string, c: char, k: int)
    requires 0 <= k < |s| && s[k] == c
    requires forall j :: k < j < |s| ==> s[j] != c
    ensures LastIndexOf(s, c) == k
  {
  }
}

=== FILE: wrappers.dfy ===
/** The absent-or-present value used where the C# code returns `null` for
    "this element is not mine". */
module Wrappers {

  datatype Option<+T> = None | Some(value: T)
}
